=== FILE: README.md ===
# BaristaBot motion core in Dafny

This project models the motion controller of the BaristaBot latte-art plotter (`arduinoThread.cpp`). The controller takes a job, which is an ordered list of polylines of 2-D points in the cropped image space. It walks the job with a cursor and turns each move into two step budgets for the X and Y stepper motors. A separate pulse loop then drains those budgets by toggling each axis's step line.

The model is functional. Each piece of controller state is an immutable record, and each source operation is a pure function over those records:

- **`Geometry`** models `getSteps`. It converts a one-axis move in normalized coordinates into signed 1/16 micro-steps over an 80 mm square. The C++ `int()` cast becomes an explicit truncation toward zero (`Trunc`), and X is mounted reversed.
- **`AxisRuns`** models the per-axis engine record (`x_steps`, `x_inc`, `x_delay`, `x_go`, direction and sleep pins). It also covers:
  - one iteration of the pulse loop for one axis (`Pulse`);
  - the sleep-pin check of the update tick (`Sleep`);
  - the completion test `journeysDone`.
- **`Dispatch`** holds the arithmetic of `fireEngines`:
  - per-axis step counts;
  - the coordinated delays, computed with C++ integer division;
  - the direction level.
- **`Journey`** models the planner cursor and its six-branch `planJourney`. It also gives a reference reading of the job as one flat sequence of points.
- **`Machine`** models the whole controller:
  - the phase enum;
  - `fireEngines`, `journeyOn` and `update`;
  - one pulse-loop iteration over both axes;
  - the phase assignments in `setupArduino`, `goHome`, `shootCoffee` and `shootFace`;
  - runs over arbitrary event sequences.
- **`Scenarios`** runs concrete jobs through `Run` tick by tick, with an exact configuration in which a move of `d` normalized units is `8 * d` steps.

Hardware calls are left out. Pin writes are kept only as the levels they leave in the axis record. Time enters the model only as a per-axis "delay elapsed" boolean for each pulse-loop iteration.

### Behaviour the model makes explicit

- **Two counting units.** The pulse loop counts step-line *edges* and stops at `2 * steps` (line 432). The completion test (lines 297-301) and the sleep-pin check (lines 91-96) compare the raw edge count with `steps`. So an axis is reported done, and its motor de-energized, when half of its edges are still due. The model keeps this as written. `PulseRunDoneAtHalf` states it against the pulse loop: from a fresh dispatch an axis is done after `steps` iterations but finished only after `2 * steps`. `DoneWhileStillPulsing` shows that the sleep check has already cleared the motor's sleep pin while the next iteration still toggles its step line. `Scenarios.TravelCutShort` shows the consequence: a tick after only `steps` iterations re-arms the engines and drops the remaining edges of the move.
- **Stale vertex list on restart.** `journeyOn(true)` resets the cursor to polyline 0 but targets the first vertex of the *copied* list `points`, which is not reloaded (line 131). The restart is therefore only consistent when the cursor was already on polyline 0. `Machine.Inv` carries that condition, and `Scenarios.StaleRestart` shows the inconsistency otherwise.
- **`point_count`.** `journeyOn` resets `point_count` to 1 on every call (line 126), so a held-back move leaves it at 2, not at "previous + 1".
- **Unreachable phases.** `Home` is entered only by the commented-out limit-switch handler, and `Done` is never assigned. From power-up the live transitions therefore never reach the planner (`Machine.BootNeverPrints`).
- **End of job still dispatches.** When `planJourney` ends the job, `journeyOn` still consumes a pending flag and dispatches toward the unchanged target. Normally that move has no steps.

Three further points about the code itself:

1. Dispatch never tests `bSetupArduino`, although the comment at line 70 says commands are safe to send only once setup is done. The model has no link-ready gate either.
2. The completion test compares edge counters with step budgets, as described above, so completion does not mean that every budgeted step was emitted.
3. The delay that is scaled up is that of the axis with fewer, non-zero steps (lines 244-248); the axis with more steps keeps the minimum delay.

## Model

| member | source | states |
|---|---|---|
| Geometry.Trunc | BaristaBot/src/arduinoThread.cpp:286 | The `int()` cast of a float: for v ≥ 0 the result is the largest integer not above v; for v < 0 it is the smallest integer not below v (truncation toward zero, not the floor). |
| Geometry.TruncNegate | BaristaBot/src/arduinoThread.cpp:286 | Truncation commutes with negation, which is what makes the step conversion antisymmetric. |
| Geometry.MicroDelta | BaristaBot/src/arduinoThread.cpp:277-291 | The exact micro-step displacement before truncation is the coordinate difference times the positive factor `80 * scale * 16 / cropped_size`. It is zero iff the two coordinates are equal and has the sign of `there - here`. |
| Geometry.GetSteps | BaristaBot/src/arduinoThread.cpp:275-294 | Zero steps for a zero move. Y's count has the sign of the move and X's the opposite sign. The magnitude is the exact micro-step displacement with its fractional part dropped: `|r| ≤ |exact| < |r| + 1`. |
| Geometry.GetStepsAntisymmetric | BaristaBot/src/arduinoThread.cpp:275-293 | The reverse move gives exactly the negated step count, on either axis. |
| Geometry.GetStepsMirrorsX | BaristaBot/src/arduinoThread.cpp:283-292 | The X conversion is the Y formula negated: with X's steps-per-mm factor used for Y, the two counts are opposite. |
| AxisRuns.Disarmed | BaristaBot/src/arduinoThread.cpp:31-32 | The initialized engine has a zero budget, a zero counter and its step line low. It counts as within budget, finished and done, and no pulse-loop iteration changes it. |
| AxisRuns.JourneysDone | BaristaBot/src/arduinoThread.cpp:297-301 | Both axes having emitted their whole edge budgets implies completion, and completion implies that the sleep check de-energizes both motors. |
| AxisRuns.Pulse | BaristaBot/src/arduinoThread.cpp:431-449 | One pulse-loop iteration on one axis toggles the step line and adds exactly one edge iff the delay elapsed and fewer than `2 * steps` edges were emitted; otherwise nothing changes. The edge budget `inc ≤ 2 * steps` is preserved, and `go` changes exactly when `inc` does. |
| AxisRuns.PulseRun | BaristaBot/src/arduinoThread.cpp:427-450 | `n` iterations with the delay always elapsed emit `min(n, remaining)` edges and never overshoot the budget. The step line ends at the starting level iff an even number of edges was emitted. |
| AxisRuns.PulseRunFinishes | BaristaBot/src/arduinoThread.cpp:431-436 | Given enough iterations an axis emits exactly `2 * steps` edges, is reported done, and further iterations change nothing. |
| AxisRuns.Sleep | BaristaBot/src/arduinoThread.cpp:91-96 | The motor stays energized iff it was energized and the raw counter is below the budget; no other field changes. |
| AxisRuns.DoneWhileStillPulsing | BaristaBot/src/arduinoThread.cpp:91-96 | With `k > 0` steps and `k` edges emitted, the axis is already reported done and not finished. The sleep check de-energizes its motor, yet the next iteration, before or after that check, still toggles its step line. |
| AxisRuns.PulseRunDoneAtHalf | BaristaBot/src/arduinoThread.cpp:297-301 | After `n` pulse-loop iterations with the delay elapsed, the axis is reported done iff its counter plus `n` reaches `steps`, but finished iff it reaches `2 * steps`. From a fresh dispatch: done iff `n ≥ steps`, finished iff `n ≥ 2 * steps`. |
| Dispatch.Steps | BaristaBot/src/arduinoThread.cpp:235-236 | A move from a point to itself has zero steps on both axes. |
| Dispatch.IsNoOp | BaristaBot/src/arduinoThread.cpp:239-241 | `fireEngines` skips a move iff both exact micro-step displacements are below one step in magnitude, so a move from a point to itself is always skipped. |
| Dispatch.Delays | BaristaBot/src/arduinoThread.cpp:231-248 | Both delays are at least `DELAY_MIN` and at least one equals it. Only the axis with strictly fewer, non-zero steps is slowed, and its delay is the integer quotient `DELAY_MIN * big / small`, characterised by `d * small ≤ DELAY_MIN * big < (d + 1) * small`. Equal counts or a zero axis leave both at `DELAY_MIN`. |
| Dispatch.DivAtLeast | BaristaBot/src/arduinoThread.cpp:245-247 | C++ integer division of `DELAY_MIN * big` by a smaller positive count never goes below `DELAY_MIN` and brackets the exact quotient. |
| Dispatch.DelaysBalanceTravelTime | BaristaBot/src/arduinoThread.cpp:244-248 | When both axes move, the slowed axis's total pulse time falls short of the other axis's by less than its own step count: the coordinated-arrival approximation. |
| Dispatch.DirLevel | BaristaBot/src/arduinoThread.cpp:251-254 | The direction level is low iff the signed step count is positive (zero gives high). |
| Journey.PlanJourney | BaristaBot/src/arduinoThread.cpp:177-225 | The cursor invariant is preserved. The job ends iff the cursor is on the last point of the last polyline, and then nothing changes. Otherwise the cursor moves to the next point in the polyline or to the first point of the next one, and the target is the new cursor point. Leaving a polyline raises the transition flag; leaving point 0 raises stroke start and clears the transition; reaching the last point raises stroke end. `current` and the job are untouched. |
| Journey.StrokeFlags | BaristaBot/src/arduinoThread.cpp:195-211 | A three-point polyline raises stroke start on the first advance and stroke end on the second. A two-point polyline never raises stroke end. |
| Journey.PlanVisitsNextPoint | BaristaBot/src/arduinoThread.cpp:177-225 | Read against the job flattened into one sequence of points, each planning step moves the cursor to the next position and targets that point. The job ends exactly on the last position, so every point of every polyline is visited once, in order. |
| Machine.Boot | BaristaBot/src/arduinoThread.cpp:8-33 | After start and variable initialization: phase `Start`, a pending transition, no stroke start, both engines with zero budgets and counters and their step lines low, cursor at the start of the job. |
| Machine.SetupArduino | BaristaBot/src/arduinoThread.cpp:72 | Link ready: the phase becomes `Idle` and nothing else changes. |
| Machine.GoHome | BaristaBot/src/arduinoThread.cpp:353-354 | The phase becomes `Homing` and nothing else changes. |
| Machine.EnterShootFace | BaristaBot/src/arduinoThread.cpp:327-328 | The phase becomes `ShootFace` and nothing else changes. |
| Machine.EnterShootCoffee | BaristaBot/src/arduinoThread.cpp:337-351 | `ShootCoffee` is immediately followed by `ShootFace`; nothing else changes. |
| Machine.FireEngines | BaristaBot/src/arduinoThread.cpp:228-272 | A zero-step move changes nothing. Otherwise both engines are armed (`Armed`): budgets are the absolute step counts, counters are zero, delays are the coordinated ones, direction levels follow the signs and both motors are energized. The step lines keep their levels. `current` becomes `target`, and the phase and the rest of the planner are untouched. The state invariant is preserved. |
| Machine.LongEnough | BaristaBot/src/arduinoThread.cpp:161-166 | The tolerance test: a move above the tolerance on both axes is fired, and so is a move above four times the tolerance on either axis. Every other move is held back: one within the tolerance on some axis and within four times it on both. With a non-negative tolerance, a fired move has steps on some axis. |
| Machine.LongEnoughMoves | BaristaBot/src/arduinoThread.cpp:157-166 | A move that passes the tolerance test is never the skipped zero-step move, so it is always dispatched. |
| Machine.Replanned | BaristaBot/src/arduinoThread.cpp:126-136 | The planning step of `journeyOn(false)` starts from `point_count = 1` and keeps the cursor invariant. |
| Machine.JourneyOn | BaristaBot/src/arduinoThread.cpp:125-174 | Restart resets the cursor, raises the transition flag, targets the first copied vertex and dispatches from `(cropped_size, cropped_size)`, arming both engines for that move; the stroke-start and stroke-end flags and both step-line levels are kept. Otherwise the cursor and target are the planner's and end of job enters `ShootFace`. At most one flag is consumed, in the order transition, stroke start, stroke end. A flagged move with steps is dispatched, with both engines armed for the move from the old `current` to the new target; a flagged move without steps leaves `current`, both engines and `point_count` 1 alone. An unflagged move is dispatched and armed iff it passes the tolerance test; otherwise `current` and both engines are untouched and `point_count` is 2. |
| Machine.Dispatched | BaristaBot/src/arduinoThread.cpp:139-171 | On a re-planned state: the first pending flag is consumed and its move, unless it has no steps, is fired with both engines armed. With no flag the move is fired iff it passes the tolerance test; otherwise `current` and the engines are kept and the point count grows by one. Only `current`, the three flags and the point count of the planner can change, the step-line levels are kept, and the state invariant is preserved. |
| Machine.JourneyDispatches | BaristaBot/src/arduinoThread.cpp:139-171 | A continuation step fires the re-planned move exactly when it is flagged and has steps, or is unflagged and passes the tolerance test; it then arms both engines for it. Otherwise `current` and both engines are untouched. |
| Machine.JourneyAdvances | BaristaBot/src/arduinoThread.cpp:111-115 | A journey step from `Printing` keeps the job and the cursor invariant. It ends in `ShootFace` iff the cursor was on the last position of the flattened job, and then the cursor stays. Otherwise it stays in `Printing` and the cursor moves to the next position. |
| Machine.Update | BaristaBot/src/arduinoThread.cpp:88-122 | `Home` restarts the journey and enters `Printing`, keeping the job: the move from `(cropped_size, cropped_size)` to the first copied vertex is dispatched with both engines armed, unless it has no steps, in which case `current` stays there and only the sleep check touches the engines. `Printing` stays in `Printing` or ends in `ShootFace`. Once both axes report done, the job is kept and the tick enters `ShootFace` iff the cursor was on the last position of the flattened job. Otherwise it advances the cursor by exactly one position. The re-planned move is dispatched with both engines armed exactly when `JourneyDispatches` says it fires; otherwise `current` is kept and only the sleep check touches the engines. In every other case only the sleep-pin check acts. |
| Machine.PulseStep | BaristaBot/src/arduinoThread.cpp:431-449 | One pulse-loop iteration leaves phase and planner alone, advances each axis independently by its own `Pulse`, and preserves the state invariant. |
| Machine.UpdateKeepsInv | BaristaBot/src/arduinoThread.cpp:88-122 | The control tick preserves the invariant: cursor inside the job, copied vertex list matching the cursor, both engines within their edge budgets, and the cursor on polyline 0 whenever the phase is `Home`. |
| Machine.Step | BaristaBot/src/arduinoThread.cpp:88-122 | Every event (tick, pulse-loop iteration, link ready, home request) preserves the invariant. |
| Machine.Run | BaristaBot/src/arduinoThread.cpp:88-122 | Any event sequence preserves the invariant. `Home`, `Done` and `ShootCoffee` are never entered. `Printing` and `ShootFace` are reached only from `Home`, `Printing` or `ShootFace`. |
| Machine.BootNeverPrints | BaristaBot/src/arduinoThread.cpp:98-121 | From power-up, any event sequence stays in `Start`, `Idle` or `Homing` and never touches the planner. |
| Machine.BootRunStaysInert | BaristaBot/src/arduinoThread.cpp:98-121 | From `Start`, `Idle` or `Homing`, no event leaves those phases or changes the planner. |
| Machine.RunPulsesThenTick | BaristaBot/src/arduinoThread.cpp:427-450 | `n` pulse-loop iterations followed by a tick equal the tick applied to both engines advanced by `n` iterations. |
| Scenarios.ThreePointStroke | BaristaBot/src/arduinoThread.cpp:125-225 | A three-point stroke from `Home` takes: a travel move to its first point; a stroke-start move to the middle point; a stroke-end move to the last point; then end of job in `ShootFace` with no further dispatch. |
| Scenarios.TravelCutShort | BaristaBot/src/arduinoThread.cpp:91-115 | In the three-point stroke, a tick after only 8 iterations of the 8-step travel move finds the move done although 8 of its 16 edges are still due. It re-arms the engines for the stroke with fresh counters, so those edges are never emitted. |
| Scenarios.SinglePointJob | BaristaBot/src/arduinoThread.cpp:180-184 | A single-point job: one travel move to the point, then end of job with the transition flag consumed and nothing dispatched. |
| Scenarios.ShortMovesCoalesce | BaristaBot/src/arduinoThread.cpp:155-171 | With 2-step spacing and a tolerance of 2, the short middle move is held back (`current` kept, `point_count` 2). The next point, 4 steps away, is dispatched as one move. |
| Scenarios.StaleRestart | BaristaBot/src/arduinoThread.cpp:128-133 | Restarting from `Home` with the cursor on polyline 1 targets that polyline's first point while the cursor says polyline 0: the cursor invariant is lost. |

## Left out

- Firmata I/O (connection, pin modes, pin-change listeners, `ard.update`) is a foreign hardware call. Pin writes survive only as the direction, step and sleep levels recorded in each axis record.
- Threading, the wall clock and `usleep` are left out. The pulse loop is one iteration at a time, with a boolean per axis saying whether its delay elapsed. The pulse timers `x_timer`/`y_timer` are therefore not part of the state.
- Interleavings are left out. The model serialises the control tick and pulse-loop iterations into one event sequence, so concurrent writes to the shared counters are not modelled.
- Debug and display strings (`draw`, `hex`, `hwy`, `ex`, `wy`) are display only.
- The jog, plunger, ink and homing-motor helpers drive the motor thread class, which is not part of this model. Only `goHome`'s phase change is kept, and `startInk`/`stopInk` have empty bodies.
- The commented-out limit-switch handler and end-of-job choreography are dead code. As a result no live transition enters `Home` or `Done`.
- `bSetupArduino` is not part of the state. In arduinoThread.cpp it gates nothing, only the status text.
- Geometry.GetSteps: the arithmetic is exact (`real`), not IEEE single precision. Bit-exact step counts are not claimed, only the structural properties.
- Geometry.GetSteps: the 32-bit `int` overflow of the cast for huge moves is not modelled, and neither is overflow in `abs` or `DELAY_MIN * big`.
- Machine.Boot: arduinoThread.cpp never initialises `paths`, `points`, the cursors, `current`, `target`, `end_path` or `point_count`. `Boot` sets them to the start of the job, with `end_path` false. It also picks values for `x_delay`/`y_delay` (0) and for the direction and sleep pin levels (low, motor not energized), which `initializeVariables` (lines 25-33) never sets; no property depends on them.
- Machine.JourneyOn: the continuation requires the cursor invariant. The source's unsigned `size() - 1` and `at()` otherwise wrap or throw, which the model does not reproduce. The restart requires a non-empty copied vertex list, since `*points.begin()` on an empty list is undefined.
- Machine.Update: it requires a non-empty copied vertex list in `Home` (for the restart) and the cursor invariant in `Printing` once both axes report done (for the planning step), the two cases where it calls `JourneyOn`.
- The constants of `arduinoThread.h`, which is not modelled (`SCALE_X`, `SCALE_Y`, `TOL`, `DELAY_MIN`, the crop size) are configuration parameters and are assumed positive.

=== FILE: axis_runs.dfy ===
/**
 * The step-pulse engine of one axis: a step budget, a counter of emitted
 * step-line edges, the pulse delay, and the levels last written to the
 * axis's step, direction and sleep (enable) pins.
 */
module AxisRuns {

  /** A digital pin level; `High` is `true`. */
  type Level = bool

  const High: Level := true
  const Low: Level := false

  /**
   * `steps` is the budget armed by the planner (`x_steps`), `inc` the number
   * of step-line toggles emitted so far (`x_inc`), `delay` the minimum time
   * between toggles (`x_delay`), `go` the level last written to the step pin
   * (`x_go`), `dir` the level last written to the direction pin and `awake`
   * whether the sleep pin was last driven high (motor energized).
   */
  datatype AxisRun = AxisRun(steps: nat, inc: nat, delay: int, go: Level, dir: Level, awake: bool)

  /**
   * An axis that has neither a budget nor any progress: it reads as done
   * and the pulse loop never toggles it.
   */
  function Disarmed(): (a: AxisRun)
    ensures a.steps == 0 && a.inc == 0 && a.go == Low && !a.awake
    ensures WithinBudget(a) && Finished(a) && AxisDone(a)
    ensures forall elapsed: bool :: Pulse(a, elapsed) == a
  {
    AxisRun(0, 0, 0, Low, Low, false)
  }

  /**
   * Each logical step takes two toggles of the step line, so the engine may
   * emit at most two edges per budgeted step.
   */
  predicate WithinBudget(a: AxisRun) {
    a.inc <= 2 * a.steps
  }

  /** Every edge of the budget has been emitted: the engine will not toggle again. */
  predicate Finished(a: AxisRun) {
    a.inc >= 2 * a.steps
  }

  /**
   * The per-axis half of the firmware's completion test: the raw edge
   * counter compared with the step budget, without the factor of two.
   */
  predicate AxisDone(a: AxisRun) {
    a.inc >= a.steps
  }

  /**
   * The planner's "journey complete" query over both axes. A move whose
   * edges are all emitted is complete, and a complete move has both motors
   * de-energized by the sleep-pin check.
   */
  function JourneysDone(x: AxisRun, y: AxisRun): (b: bool)
    ensures Finished(x) && Finished(y) ==> b
    ensures b ==> !Sleep(x).awake && !Sleep(y).awake
  {
    AxisDone(x) && AxisDone(y)
  }

  /**
   * One axis of one iteration of the pulse loop. `elapsed` stands for "the
   * time since this axis's last toggle exceeds its delay". The axis toggles
   * its step line only while the halved edge count is below the budget.
   */
  function Pulse(a: AxisRun, elapsed: bool): (r: AxisRun)
    ensures r.steps == a.steps && r.delay == a.delay && r.dir == a.dir && r.awake == a.awake
    ensures elapsed && a.inc < 2 * a.steps ==> r.inc == a.inc + 1 && r.go == !a.go
    ensures !elapsed || Finished(a) ==> r == a
    ensures WithinBudget(a) ==> WithinBudget(r)
    ensures r.go != a.go <==> r.inc != a.inc
  {
    if elapsed && a.steps > 0 && a.inc / 2 < a.steps then
      a.(go := !a.go, inc := a.inc + 1)
    else
      a
  }

  /**
   * The sleep-pin check of the update tick: an axis whose raw counter has
   * reached its budget, or that has no budget, is de-energized.
   */
  function Sleep(a: AxisRun): (r: AxisRun)
    ensures r.awake <==> a.awake && a.inc < a.steps
    ensures r.(awake := a.awake) == a
  {
    if a.inc >= a.steps || a.steps == 0 then a.(awake := false) else a
  }

  function Min(a: int, b: int): int {
    if a <= b then a else b
  }

  /**
   * `n` iterations of the pulse loop in which this axis's delay has always
   * elapsed: the counter climbs one edge per iteration and stops at twice
   * the budget.
   */
  function PulseRun(a: AxisRun, n: nat): (r: AxisRun)
    requires WithinBudget(a)
    ensures WithinBudget(r)
    ensures r.steps == a.steps && r.delay == a.delay && r.dir == a.dir && r.awake == a.awake
    ensures r.inc == Min(a.inc + n, 2 * a.steps)
    ensures r.go == (if (r.inc - a.inc) % 2 == 0 then a.go else !a.go)
    decreases n
  {
    if n == 0 then a else PulseRun(Pulse(a, true), n - 1)
  }

  /**
   * Given enough iterations the engine emits exactly its whole budget of
   * edges and never overshoots it, however many more iterations follow.
   */
  lemma PulseRunFinishes(a: AxisRun, n: nat)
    requires WithinBudget(a)
    requires n >= 2 * a.steps - a.inc
    ensures Finished(PulseRun(a, n)) && PulseRun(a, n).inc == 2 * a.steps
    ensures AxisDone(PulseRun(a, n))
    ensures Pulse(PulseRun(a, n), true) == PulseRun(a, n)
  {
  }

  /**
   * The completion test reads the edge counter as if it counted steps, so
   * an axis is reported done while its engine still has edges to emit:
   * with a budget of `k > 0` steps and `k` edges emitted, the next
   * iteration with its delay elapsed still toggles the step line.
   */
  lemma DoneWhileStillPulsing(a: AxisRun)
    requires a.steps > 0 && a.inc == a.steps
    ensures AxisDone(a) && WithinBudget(a) && !Finished(a)
    ensures Pulse(a, true).inc == a.inc + 1
    ensures !Sleep(a).awake && Pulse(Sleep(a), true).inc == a.inc + 1
  {
  }

  /**
   * Against the pulse loop: with its delay always elapsed, an axis is
   * reported done after half as many iterations as it needs to emit its
   * whole budget.
   */
  lemma PulseRunDoneAtHalf(a: AxisRun, n: nat)
    requires WithinBudget(a)
    ensures AxisDone(PulseRun(a, n)) <==> a.inc + n >= a.steps
    ensures Finished(PulseRun(a, n)) <==> a.inc + n >= 2 * a.steps
    ensures a.inc == 0 ==> (AxisDone(PulseRun(a, n)) <==> n >= a.steps)
    ensures a.inc == 0 ==> (Finished(PulseRun(a, n)) <==> n >= 2 * a.steps)
  {
  }
}

=== FILE: dispatch.dfy ===
/**
 * The arithmetic of move dispatch: per-axis step counts of a move, the
 * per-axis pulse delays that approximate simultaneous arrival, and the
 * direction-pin level chosen from the sign of a step count.
 */
module Dispatch {
  import opened Geometry
  import opened AxisRuns

  /** Signed step counts `(x, y)` of the move from `from` to `to`. */
  function Steps(c: Config, from: Point, to: Point): (r: (int, int))
    requires c.Valid()
    ensures from == to ==> r == (0, 0)
  {
    (GetSteps(c, from.x, to.x, X), GetSteps(c, from.y, to.y, Y))
  }

  /**
   * A move with a zero step count on both axes is skipped: exactly the
   * moves shorter than one micro-step on each axis.
   */
  function IsNoOp(c: Config, from: Point, to: Point): (b: bool)
    requires c.Valid()
    ensures b <==> AbsReal(MicroDelta(c, from.x, to.x, X)) < 1.0 && AbsReal(MicroDelta(c, from.y, to.y, Y)) < 1.0
    ensures from == to ==> b
  {
    Steps(c, from, to) == (0, 0)
  }

  /**
   * Pulse delays `(x, y)` for a move of `sx` and `sy` steps: both start at
   * `delayMin`; the axis with strictly fewer, non-zero steps is slowed
   * down by the ratio of the two counts (C++ integer division).
   */
  function Delays(delayMin: int, sx: nat, sy: nat): (r: (int, int))
    requires delayMin > 0
    ensures r.0 >= delayMin && r.1 >= delayMin
    ensures r.0 == delayMin || r.1 == delayMin
    ensures r.0 > delayMin ==> 0 < sx < sy
    ensures r.1 > delayMin ==> 0 < sy < sx
    ensures sx == sy || sx == 0 || sy == 0 ==> r == (delayMin, delayMin)
    ensures 0 < sx < sy ==> r.0 * sx <= delayMin * sy < (r.0 + 1) * sx
    ensures 0 < sy < sx ==> r.1 * sy <= delayMin * sx < (r.1 + 1) * sy
  {
    if sy > sx && sx != 0 then
      var d := delayMin * sy / sx;
      DivAtLeast(delayMin, sy, sx);
      (d, delayMin)
    else if sx > sy && sy != 0 then
      var d := delayMin * sx / sy;
      DivAtLeast(delayMin, sx, sy);
      (delayMin, d)
    else
      (delayMin, delayMin)
  }

  /** Scaling by a ratio above one never lowers a positive delay. */
  lemma DivAtLeast(m: int, big: nat, small: nat)
    requires m > 0 && 0 < small <= big
    ensures m * big / small >= m
    ensures (m * big / small) * small <= m * big < (m * big / small + 1) * small
  {
    var q := m * big / small;
    var rem := m * big % small;
    assert m * big == q * small + rem && 0 <= rem < small;
    MulMono(m, small, big);
    if q < m {
      MulMono(small, q, m - 1);
    }
  }

  lemma MulMono(k: int, a: int, b: int)
    requires k >= 0 && a <= b
    ensures k * a <= k * b && a * k <= b * k
  {
  }

  /**
   * Coordinated arrival: when both axes move, the two axes' total pulse
   * times (steps times delay) differ by less than the smaller step count.
   */
  lemma DelaysBalanceTravelTime(delayMin: int, sx: nat, sy: nat)
    requires delayMin > 0 && sx > 0 && sy > 0
    ensures 0 <= Delays(delayMin, sx, sy).1 * sy - Delays(delayMin, sx, sy).0 * sx < sx || 0 <= Delays(delayMin, sx, sy).0 * sx - Delays(delayMin, sx, sy).1 * sy < sy
    ensures sx <= sy ==> 0 <= Delays(delayMin, sx, sy).1 * sy - Delays(delayMin, sx, sy).0 * sx < sx
  {
  }

  /** Direction level for a signed step count: low when positive, high otherwise (zero included). */
  function DirLevel(sdelta: int): (l: Level)
    ensures l == Low <==> sdelta > 0
  {
    if sdelta > 0 then Low else High
  }
}

=== FILE: geometry.dfy ===
/**
 * Coordinate converter of the BaristaBot plotter: normalized drawing
 * coordinates become signed micro-step counts for one axis.
 *
 * The firmware computes in C++ `float` and converts with `int(...)`; here the
 * arithmetic is exact (`real`) and the conversion is an explicit truncation
 * toward zero.
 */
module Geometry {

  /** A point of the cropped drawing space. */
  datatype Point = Point(x: real, y: real)

  /** The two coordinated drawing axes. */
  datatype Axis = X | Y

  /**
   * Constants that the firmware takes from its header and from the vision
   * stage: the crop size that normalizes coordinates, the steps-per-mm
   * factors of both axes, the dispatch tolerance (in steps) and the minimum
   * per-edge pulse delay (in microseconds).
   */
  datatype Config = Config(croppedSize: real, scaleX: real, scaleY: real, tol: int, delayMin: int)
  {
    predicate Valid() {
      croppedSize > 0.0 && scaleX > 0.0 && scaleY > 0.0 && tol > 0 && delayMin > 0
    }
  }

  /** Side of the square working area, in millimetres. */
  const WorkAreaMm: real := 80.0

  /** Micro-stepping multiplier of the stepper drivers. */
  const Microsteps: real := 16.0

  function Abs(n: int): nat {
    if n < 0 then -n else n
  }

  function AbsReal(v: real): real {
    if v < 0.0 then -v else v
  }

  /**
   * The C++ float-to-int conversion: the integer part, truncated toward
   * zero (not the floor for negative values).
   */
  function Trunc(v: real): (r: int)
    ensures 0.0 <= v ==> 0 <= r && r as real <= v < r as real + 1.0
    ensures v < 0.0 ==> r <= 0 && r as real - 1.0 < v <= r as real
  {
    if v >= 0.0 then v.Floor else -((-v).Floor)
  }

  /** Truncation toward zero commutes with negation (the floor does not). */
  lemma TruncNegate(v: real)
    ensures Trunc(-v) == -Trunc(v)
  {
    if v < 0.0 {
      assert -(-v) == v;
    }
  }

  function Scale(c: Config, ax: Axis): real {
    match ax
    case X => c.scaleX
    case Y => c.scaleY
  }

  /**
   * The exact micro-step displacement of a move from `here` to `there` on
   * axis `ax`, before truncation and before the X axis is mirrored.
   */
  function MicroDelta(c: Config, here: real, there: real, ax: Axis): (r: real)
    requires c.Valid()
    ensures here < there ==> r > 0.0
    ensures there < here ==> r < 0.0
    ensures r == 0.0 <==> here == there
    ensures r == (there - here) * (WorkAreaMm * Scale(c, ax) * Microsteps / c.croppedSize)
  {
    var k := WorkAreaMm * Scale(c, ax) * Microsteps;
    var nd := there / c.croppedSize - here / c.croppedSize;
    assert nd == (there - here) / c.croppedSize;
    assert k > 0.0 && k / c.croppedSize > 0.0;
    assert nd * WorkAreaMm * Scale(c, ax) * Microsteps == nd * k;
    assert nd * k == (there - here) * (k / c.croppedSize);
    nd * WorkAreaMm * Scale(c, ax) * Microsteps
  }

  /**
   * Signed step count of a one-axis move: the normalized delta scaled to the
   * 80 mm square, to steps per mm and to 1/16 micro-steps, truncated toward
   * zero; the X axis is mounted reversed, so its count is negated.
   */
  function GetSteps(c: Config, here: real, there: real, ax: Axis): (r: int)
    requires c.Valid()
    ensures here == there ==> r == 0
    ensures ax == Y ==> (here < there ==> r >= 0) && (there < here ==> r <= 0)
    ensures ax == X ==> (here < there ==> r <= 0) && (there < here ==> r >= 0)
    ensures Abs(r) as real <= AbsReal(MicroDelta(c, here, there, ax)) < Abs(r) as real + 1.0
  {
    match ax
    case X => -Trunc(MicroDelta(c, here, there, X))
    case Y => Trunc(MicroDelta(c, here, there, Y))
  }

  /** Converting the reverse move gives exactly the negated step count. */
  lemma GetStepsAntisymmetric(c: Config, a: real, b: real, ax: Axis)
    requires c.Valid()
    ensures GetSteps(c, a, b, ax) == -GetSteps(c, b, a, ax)
  {
    var fwd := b / c.croppedSize - a / c.croppedSize;
    assert a / c.croppedSize - b / c.croppedSize == -fwd;
    assert MicroDelta(c, b, a, ax) == -MicroDelta(c, a, b, ax);
    TruncNegate(MicroDelta(c, a, b, ax));
  }

  /**
   * The X axis uses the Y formula, negated: with equal steps-per-mm factors
   * the two axes give opposite counts for the same move.
   */
  lemma GetStepsMirrorsX(c: Config, here: real, there: real)
    requires c.Valid()
    ensures GetSteps(c, here, there, X) == -GetSteps(c.(scaleY := c.scaleX), here, there, Y)
  {
    var m := c.(scaleY := c.scaleX);
    assert MicroDelta(c, here, there, X) == MicroDelta(m, here, there, Y);
  }
}

=== FILE: journey.dfy ===
/**
 * The path planner: a cursor over a job (an ordered sequence of polylines)
 * that picks the next target point and raises the single-shot flags that
 * tell the dispatcher whether a move starts a travel transition, starts a
 * stroke or draws the last segment of a stroke.
 */
module Journey {
  import opened Geometry

  /**
   * `paths` is the job, `points` the vertex list of the active polyline
   * (the firmware keeps a copy), `pathsI`/`pointsI` the cursor, `current`
   * the destination of the last dispatched move and `target` the point
   * being travelled to next. `pointCount` is the display-only counter the
   * dispatcher maintains.
   */
  datatype Planner = Planner(
    paths: seq<seq<Point>>,
    points: seq<Point>,
    pathsI: nat,
    pointsI: nat,
    current: Point,
    target: Point,
    startTransition: bool,
    startPath: bool,
    endPath: bool,
    pointCount: int)

  /** A job the planner can walk: at least one polyline, none of them empty. */
  predicate JobOk(paths: seq<seq<Point>>) {
    |paths| > 0 && forall i :: 0 <= i < |paths| ==> |paths[i]| > 0
  }

  /**
   * The cursor invariant: the cursor lies inside the job and the copied
   * vertex list is the polyline the cursor points into.
   */
  predicate CursorOk(p: Planner) {
    && JobOk(p.paths)
    && p.pathsI < |p.paths|
    && p.points == p.paths[p.pathsI]
    && p.pointsI < |p.points|
  }

  /** The result of one planning step; `finished` means end-of-job handling was triggered. */
  datatype Planned = Planned(plan: Planner, finished: bool)

  /**
   * One planning step. Its six branches, in order: a one-point polyline
   * (end the job if it is the last one, else travel to the next polyline);
   * the first point of a stroke; the middle of a stroke; the second-to-last
   * point of a stroke; the end of a stroke with polylines remaining; the
   * end of the job.
   */
  function PlanJourney(p: Planner): (r: Planned)
    requires CursorOk(p)
    ensures CursorOk(r.plan)
    ensures r.plan.paths == p.paths && r.plan.current == p.current && r.plan.pointCount == p.pointCount
    // end of job exactly at the last point of the last polyline, touching nothing
    ensures r.finished <==> p.pathsI == |p.paths| - 1 && p.pointsI == |p.points| - 1
    ensures r.finished ==> r.plan == p
    // otherwise exactly one of the two cursor moves, and the target follows the cursor
    ensures !r.finished ==> r.plan.target == r.plan.points[r.plan.pointsI]
    ensures !r.finished && p.pointsI < |p.points| - 1 ==>
      r.plan.pathsI == p.pathsI && r.plan.pointsI == p.pointsI + 1
    ensures !r.finished && p.pointsI == |p.points| - 1 ==>
      r.plan.pathsI == p.pathsI + 1 && r.plan.pointsI == 0
    // flags: leaving a polyline marks a transition
    ensures !r.finished && r.plan.pathsI != p.pathsI ==>
      r.plan.startTransition && r.plan.startPath == p.startPath && r.plan.endPath == p.endPath
    // leaving the first point of a stroke marks its start and cancels a pending transition
    ensures !r.finished && r.plan.pathsI == p.pathsI && p.pointsI == 0 ==>
      r.plan.startPath && !r.plan.startTransition && r.plan.endPath == p.endPath
    // later in a stroke, only reaching its last point marks its end
    ensures !r.finished && r.plan.pathsI == p.pathsI && p.pointsI > 0 ==>
      && r.plan.startPath == p.startPath && r.plan.startTransition == p.startTransition
      && r.plan.endPath == (p.endPath || r.plan.pointsI == |p.points| - 1)
  {
    if |p.points| == 1 then
      if p.pathsI == |p.paths| - 1 then
        Planned(p, true)
      else
        var next := p.paths[p.pathsI + 1];
        Planned(p.(startTransition := true, pathsI := p.pathsI + 1, points := next,
                   pointsI := 0, target := next[0]), false)
    else if p.pointsI == 0 then
      Planned(p.(startPath := true, startTransition := false, pointsI := 1,
                 target := p.points[1]), false)
    else if p.pointsI < |p.points| - 2 then
      Planned(p.(pointsI := p.pointsI + 1, target := p.points[p.pointsI + 1]), false)
    else if p.pointsI < |p.points| - 1 then
      Planned(p.(endPath := true, pointsI := p.pointsI + 1,
                 target := p.points[p.pointsI + 1]), false)
    else if p.pathsI < |p.paths| - 1 then
      var next := p.paths[p.pathsI + 1];
      Planned(p.(startTransition := true, pathsI := p.pathsI + 1, pointsI := 0,
                 points := next, target := next[0]), false)
    else
      Planned(p, true)
  }

  /**
   * Stroke flags by polyline length: a three-point polyline raises the
   * stroke-start flag on leaving its first point and the stroke-end flag on
   * the next step; a two-point polyline never raises the stroke-end flag.
   */
  lemma StrokeFlags(p: Planner)
    requires CursorOk(p) && p.pointsI == 0 && !p.endPath
    ensures |p.points| == 3 ==>
      && PlanJourney(p).plan.startPath && !PlanJourney(p).plan.endPath
      && PlanJourney(PlanJourney(p).plan).plan.endPath
    ensures |p.points| == 2 ==>
      && !PlanJourney(p).plan.endPath
      && !PlanJourney(PlanJourney(p).plan).plan.endPath
  {
  }

  // ---------------------------------------------------------------------
  // Reference definition: the job read as one flat sequence of points.
  // ---------------------------------------------------------------------

  /** All points of the job, polyline after polyline. */
  function Flatten(paths: seq<seq<Point>>): seq<Point> {
    if |paths| == 0 then [] else Flatten(paths[..|paths| - 1]) + paths[|paths| - 1]
  }

  /** The planner's cursor as an index into the flattened job. */
  function Position(p: Planner): nat
    requires p.pathsI <= |p.paths|
  {
    |Flatten(p.paths[..p.pathsI])| + p.pointsI
  }

  lemma {:induction false} FlattenStep(paths: seq<seq<Point>>, i: nat)
    requires i < |paths|
    ensures Flatten(paths[..i + 1]) == Flatten(paths[..i]) + paths[i]
  {
    assert paths[..i + 1][..i] == paths[..i];
  }

  /** Flattening a shorter prefix of the job gives a prefix of the flattened job. */
  lemma {:induction false} FlattenPrefix(paths: seq<seq<Point>>, i: nat, k: nat)
    requires i <= k <= |paths|
    ensures |Flatten(paths[..i])| <= |Flatten(paths[..k])|
    ensures Flatten(paths[..k])[..|Flatten(paths[..i])|] == Flatten(paths[..i])
    decreases k - i
  {
    if i < k {
      FlattenPrefix(paths, i, k - 1);
      FlattenStep(paths, k - 1);
    }
  }

  /** Point `j` of polyline `i` sits in the flattened job right after the polylines before it. */
  lemma FlattenIndex(paths: seq<seq<Point>>, i: nat, j: nat)
    requires i < |paths| && j < |paths[i]|
    ensures |Flatten(paths[..i])| + j < |Flatten(paths)|
    ensures Flatten(paths)[|Flatten(paths[..i])| + j] == paths[i][j]
  {
    FlattenStep(paths, i);
    FlattenPrefix(paths, i + 1, |paths|);
    assert paths[..|paths|] == paths;
  }

  /**
   * In a job with no empty polyline, the flattened job extends strictly
   * beyond the polylines up to `i` unless `i` is the last one.
   */
  lemma FlattenRest(paths: seq<seq<Point>>, i: nat)
    requires JobOk(paths) && i < |paths|
    ensures |Flatten(paths[..i])| + |paths[i]| <= |Flatten(paths)|
    ensures |Flatten(paths[..i])| + |paths[i]| == |Flatten(paths)| <==> i == |paths| - 1
  {
    FlattenStep(paths, i);
    assert paths[..|paths|] == paths;
    if i < |paths| - 1 {
      FlattenStep(paths, i + 1);
      FlattenPrefix(paths, i + 2, |paths|);
    } else {
      FlattenPrefix(paths, i + 1, |paths|);
    }
  }

  /**
   * Each planning step moves the cursor to the next point of the flattened
   * job and targets it, and the job ends exactly when the cursor is on the
   * last point: the planner visits every point of every polyline once, in
   * order.
   */
  lemma PlanVisitsNextPoint(p: Planner)
    requires CursorOk(p)
    ensures Position(p) < |Flatten(p.paths)|
    ensures PlanJourney(p).finished <==> Position(p) == |Flatten(p.paths)| - 1
    ensures !PlanJourney(p).finished ==>
      && Position(PlanJourney(p).plan) == Position(p) + 1
      && PlanJourney(p).plan.target == Flatten(p.paths)[Position(p) + 1]
  {
    var r := PlanJourney(p);
    FlattenRest(p.paths, p.pathsI);
    if !r.finished {
      var q := r.plan;
      if q.pathsI == p.pathsI {
        FlattenIndex(p.paths, p.pathsI, p.pointsI + 1);
      } else {
        FlattenStep(p.paths, p.pathsI);
        FlattenIndex(p.paths, p.pathsI + 1, 0);
      }
    }
  }
}

=== FILE: machine.dfy ===
/**
 * The motion controller as a whole: the phase of the state machine, the
 * planner and the two axis engines, with the operations of the control
 * tick (move dispatch, journey gating, update) and one iteration of the
 * pulse loop.
 */
module Machine {
  import opened Geometry
  import opened AxisRuns
  import opened Dispatch
  import opened Journey

  /** Phases of the motion state machine. */
  datatype Phase = Start | Idle | Homing | Home | Printing | ShootFace | ShootCoffee | Done

  /** The whole controller state. */
  datatype Bot = Bot(phase: Phase, plan: Planner, x: AxisRun, y: AxisRun)

  /** The state invariant: a walkable cursor and both engines within their edge budgets. */
  predicate Valid(s: Bot) {
    CursorOk(s.plan) && WithinBudget(s.x) && WithinBudget(s.y)
  }

  // ---------------------------------------------------------------------
  // Phase setters
  // ---------------------------------------------------------------------

  /**
   * Thread start followed by variable initialization: phase `Start`, a
   * pending transition, no stroke started, both engines idle with their
   * step lines low. Planner fields the controller never initializes itself
   * (job, cursor, positions, end-of-stroke flag) are set to the start of
   * `job`.
   */
  function Boot(job: seq<seq<Point>>): (s: Bot)
    requires JobOk(job)
    ensures Valid(s) && s.phase == Start
    ensures s.plan.paths == job && s.plan.pathsI == 0 && s.plan.pointsI == 0
    ensures s.plan.startTransition && !s.plan.startPath
    ensures s.x.steps == 0 && s.x.inc == 0 && s.x.go == Low
    ensures s.y.steps == 0 && s.y.inc == 0 && s.y.go == Low
  {
    var p := Planner(job, job[0], 0, 0, job[0][0], job[0][0], true, false, false, 1);
    Bot(Start, p, Disarmed(), Disarmed())
  }

  /** The hardware link reported ready and pin modes are configured. */
  function SetupArduino(s: Bot): (r: Bot)
    ensures r.phase == Idle && r.(phase := s.phase) == s
  {
    s.(phase := Idle)
  }

  /** Operator request to home the arm (the homing motor itself is not modelled). */
  function GoHome(s: Bot): (r: Bot)
    ensures r.phase == Homing && r.(phase := s.phase) == s
  {
    s.(phase := Homing)
  }

  /** The arm raises to take a photo. */
  function EnterShootFace(s: Bot): (r: Bot)
    ensures r.phase == ShootFace && r.(phase := s.phase) == s
  {
    s.(phase := ShootFace)
  }

  /** End of job: the machine passes through `ShootCoffee` and lands in `ShootFace`. */
  function EnterShootCoffee(s: Bot): (r: Bot)
    ensures r.phase == ShootFace && r.(phase := s.phase) == s
  {
    EnterShootFace(s.(phase := ShootCoffee))
  }

  // ---------------------------------------------------------------------
  // Move dispatch
  // ---------------------------------------------------------------------

  /**
   * Both engines armed for the move from `from` to `to`: budgets are the
   * absolute step counts, counters are zero, delays are the coordinated
   * ones, direction levels follow the signs and both motors are energized.
   */
  predicate Armed(c: Config, from: Point, to: Point, x: AxisRun, y: AxisRun)
    requires c.Valid()
  {
    var st := Steps(c, from, to);
    && x.steps == Abs(st.0) && y.steps == Abs(st.1)
    && x.inc == 0 && y.inc == 0
    && (x.delay, y.delay) == Delays(c.delayMin, x.steps, y.steps)
    && (x.dir == Low <==> st.0 > 0) && (y.dir == Low <==> st.1 > 0)
    && x.awake && y.awake
  }

  /**
   * Dispatch the move from `current` to `target`: skipped when both step
   * counts are zero; otherwise both engines are armed with the absolute
   * step counts, fresh counters, coordinated delays, direction levels and
   * energized motors, and `current` becomes `target`.
   */
  function FireEngines(c: Config, s: Bot): (r: Bot)
    requires c.Valid()
    ensures IsNoOp(c, s.plan.current, s.plan.target) ==> r == s
    ensures !IsNoOp(c, s.plan.current, s.plan.target) ==>
      && r.phase == s.phase
      && r.plan == s.plan.(current := s.plan.target)
      && Armed(c, s.plan.current, s.plan.target, r.x, r.y)
      && r.x.go == s.x.go && r.y.go == s.y.go
    ensures Valid(s) ==> Valid(r)
  {
    var st := Steps(c, s.plan.current, s.plan.target);
    var sx := Abs(st.0);
    var sy := Abs(st.1);
    if sx == 0 && sy == 0 then
      s
    else
      var d := Delays(c.delayMin, sx, sy);
      s.(plan := s.plan.(current := s.plan.target),
         x := s.x.(steps := sx, inc := 0, delay := d.0, dir := DirLevel(st.0), awake := true),
         y := s.y.(steps := sy, inc := 0, delay := d.1, dir := DirLevel(st.1), awake := true))
  }

  // ---------------------------------------------------------------------
  // Journey gating
  // ---------------------------------------------------------------------

  /**
   * The tolerance test for an unflagged move of `sx` and `sy` steps: both
   * axes above the tolerance, or either one above four times it.
   */
  function LongEnough(tol: int, sx: nat, sy: nat): (b: bool)
    ensures sx > tol && sy > tol ==> b
    ensures sx > 4 * tol || sy > 4 * tol ==> b
    ensures (sx <= tol || sy <= tol) && sx <= 4 * tol && sy <= 4 * tol ==> !b
    ensures sx <= tol && sy <= tol ==> !b
    ensures tol >= 0 && b ==> sx > 0 || sy > 0
  {
    (sx > tol && sy > tol) || sx > 4 * tol || sy > 4 * tol
  }

  /** A move that passes the tolerance test is never the skipped zero-step move. */
  lemma LongEnoughMoves(c: Config, from: Point, to: Point)
    requires c.Valid()
    requires LongEnough(c.tol, Abs(Steps(c, from, to).0), Abs(Steps(c, from, to).1))
    ensures !IsNoOp(c, from, to)
  {
  }

  /** The planner state that `JourneyOn(c, s, false)` acts on after its planning step. */
  function Replanned(s: Bot): (r: Planned)
    requires CursorOk(s.plan)
    ensures CursorOk(r.plan) && r.plan.pointCount == 1
  {
    PlanJourney(s.plan.(pointCount := 1))
  }

  /**
   * The journey step. With `newCoffee` the cursor is reset to the start of
   * the job, `current` to the canonical start point and the first vertex of
   * the copied polyline is targeted and dispatched. Otherwise the planner
   * advances once; then exactly one pending flag is consumed, in the order
   * transition, stroke start, stroke end, and the move is dispatched; with
   * no flag the move is dispatched only if it is long enough, else it is
   * held back so that it coalesces with the next planning step.
   */
  function JourneyOn(c: Config, s: Bot, newCoffee: bool): (r: Bot)
    requires c.Valid()
    requires newCoffee ==> |s.plan.points| > 0
    requires !newCoffee ==> CursorOk(s.plan)
    // restart
    ensures newCoffee ==>
      && r.phase == s.phase
      && r.plan.pathsI == 0 && r.plan.pointsI == 0 && r.plan.startTransition
      && r.plan.target == s.plan.points[0] && r.plan.pointCount == 1
      && r.plan.paths == s.plan.paths && r.plan.points == s.plan.points
      && r.plan.startPath == s.plan.startPath && r.plan.endPath == s.plan.endPath
      && r.x.go == s.x.go && r.y.go == s.y.go
      && var home := Point(c.croppedSize, c.croppedSize);
         if IsNoOp(c, home, r.plan.target) then r.plan.current == home && r.x == s.x && r.y == s.y
         else r.plan.current == r.plan.target && Armed(c, home, r.plan.target, r.x, r.y)
    // continuation: the cursor and target are the planner's; the phase follows end of job
    ensures !newCoffee ==>
      var q := Replanned(s);
      && r.plan.(current := q.plan.current, startTransition := q.plan.startTransition,
                 startPath := q.plan.startPath, endPath := q.plan.endPath, pointCount := 1)
         == q.plan
      && r.phase == (if q.finished then ShootFace else s.phase)
    // continuation: at most one flag consumed, in priority order
    ensures !newCoffee ==>
      var q := Replanned(s).plan;
      && (q.startTransition ==>
            !r.plan.startTransition && r.plan.startPath == q.startPath && r.plan.endPath == q.endPath)
      && (!q.startTransition && q.startPath ==>
            !r.plan.startTransition && !r.plan.startPath && r.plan.endPath == q.endPath)
      && (!q.startTransition && !q.startPath ==> !r.plan.startTransition && !r.plan.startPath && !r.plan.endPath)
    // continuation: a flagged move is always dispatched (unless it has no steps)
    ensures !newCoffee ==>
      var q := Replanned(s).plan;
      (q.startTransition || q.startPath || q.endPath) ==>
        if IsNoOp(c, q.current, q.target) then
          r.plan.current == q.current && r.x == s.x && r.y == s.y && r.plan.pointCount == 1
        else r.plan.current == q.target && Armed(c, q.current, q.target, r.x, r.y) && r.plan.pointCount == 1
    // continuation: an unflagged move is dispatched iff it is long enough
    ensures !newCoffee ==>
      var q := Replanned(s).plan;
      var st := Steps(c, q.current, q.target);
      (!q.startTransition && !q.startPath && !q.endPath) ==>
        if LongEnough(c.tol, Abs(st.0), Abs(st.1)) then
          r.plan.current == q.target && Armed(c, q.current, q.target, r.x, r.y) && r.plan.pointCount == 1
        else
          r.plan.current == s.plan.current && r.x == s.x && r.y == s.y && r.plan.pointCount == 2
  {
    if newCoffee then
      var p := s.plan.(pointCount := 1, startTransition := true,
                       current := Point(c.croppedSize, c.croppedSize),
                       target := s.plan.points[0], pathsI := 0, pointsI := 0);
      FireEngines(c, s.(plan := p))
    else
      var q := Replanned(s);
      var s1 := if q.finished then EnterShootCoffee(s.(plan := q.plan)) else s.(plan := q.plan);
      Dispatched(c, s1)
  }

  /**
   * The dispatch half of a continuation step, on an already re-planned
   * state: the first pending flag in the order transition, stroke start,
   * stroke end is consumed and the move is fired; with no flag the move is
   * fired only if it is long enough, else the point count grows so that the
   * move coalesces with the next planning step.
   */
  function Dispatched(c: Config, s: Bot): (r: Bot)
    requires c.Valid()
    ensures r.phase == s.phase && r.x.go == s.x.go && r.y.go == s.y.go
    ensures r.plan.(current := s.plan.current, startTransition := s.plan.startTransition,
                    startPath := s.plan.startPath, endPath := s.plan.endPath,
                    pointCount := s.plan.pointCount) == s.plan
    ensures var p := s.plan;
      && (p.startTransition ==>
            !r.plan.startTransition && r.plan.startPath == p.startPath && r.plan.endPath == p.endPath)
      && (!p.startTransition && p.startPath ==>
            !r.plan.startTransition && !r.plan.startPath && r.plan.endPath == p.endPath)
      && (!p.startTransition && !p.startPath ==> !r.plan.startTransition && !r.plan.startPath && !r.plan.endPath)
    ensures var p := s.plan;
      (p.startTransition || p.startPath || p.endPath) ==>
        if IsNoOp(c, p.current, p.target) then
          r.plan.current == p.current && r.x == s.x && r.y == s.y && r.plan.pointCount == p.pointCount
        else r.plan.current == p.target && Armed(c, p.current, p.target, r.x, r.y)
             && r.plan.pointCount == p.pointCount
    ensures var p := s.plan;
      var st := Steps(c, p.current, p.target);
      (!p.startTransition && !p.startPath && !p.endPath) ==>
        if LongEnough(c.tol, Abs(st.0), Abs(st.1)) then
          r.plan.current == p.target && Armed(c, p.current, p.target, r.x, r.y)
          && r.plan.pointCount == p.pointCount
        else
          r.plan.current == p.current && r.x == s.x && r.y == s.y && r.plan.pointCount == p.pointCount + 1
    ensures Valid(s) ==> Valid(r)
  {
    var p := s.plan;
    if p.startTransition then
      FireEngines(c, s.(plan := p.(startTransition := false)))
    else if p.startPath then
      FireEngines(c, s.(plan := p.(startPath := false)))
    else if p.endPath then
      FireEngines(c, s.(plan := p.(endPath := false)))
    else
      var st := Steps(c, p.current, p.target);
      if LongEnough(c.tol, Abs(st.0), Abs(st.1)) then
        LongEnoughMoves(c, p.current, p.target);
        FireEngines(c, s)
      else
        s.(plan := p.(pointCount := p.pointCount + 1))
  }

  // ---------------------------------------------------------------------
  // Control tick and pulse loop
  // ---------------------------------------------------------------------

  /**
   * Whether the dispatch half of a continuation step fires the re-planned
   * move: a flagged move unless it has no steps, an unflagged one iff it
   * passes the tolerance test.
   */
  predicate Fires(c: Config, p: Planner)
    requires c.Valid()
  {
    if p.startTransition || p.startPath || p.endPath then !IsNoOp(c, p.current, p.target)
    else
      var st := Steps(c, p.current, p.target);
      LongEnough(c.tol, Abs(st.0), Abs(st.1))
  }

  /**
   * A continuation step either fires the re-planned move, arming both
   * engines for it, or leaves `current` and both engines alone.
   */
  lemma JourneyDispatches(c: Config, s: Bot)
    requires c.Valid() && CursorOk(s.plan)
    ensures var r := JourneyOn(c, s, false);
      var q := Replanned(s).plan;
      if Fires(c, q) then r.plan.current == q.target && Armed(c, q.current, q.target, r.x, r.y)
      else r.plan.current == s.plan.current && r.x == s.x && r.y == s.y
  {
  }

  /**
   * A journey step from `Printing` moves the cursor one position along the
   * flattened job, or ends the job exactly when the cursor is on its last
   * point.
   */
  lemma JourneyAdvances(c: Config, s: Bot)
    requires c.Valid() && CursorOk(s.plan) && s.phase == Printing
    ensures var r := JourneyOn(c, s, false);
      && CursorOk(r.plan) && r.plan.paths == s.plan.paths
      && (r.phase == Printing || r.phase == ShootFace)
      && (r.phase == ShootFace <==> Position(s.plan) == |Flatten(s.plan.paths)| - 1)
      && if r.phase == ShootFace then Position(r.plan) == Position(s.plan)
         else Position(r.plan) == Position(s.plan) + 1
  {
    var q := Replanned(s);
    PlanVisitsNextPoint(s.plan.(pointCount := 1));
    assert Position(s.plan.(pointCount := 1)) == Position(s.plan);
    assert Position(JourneyOn(c, s, false).plan) == Position(q.plan);
  }

  /**
   * The control tick: first de-energize every axis whose counter has
   * reached its budget; then `Home` restarts the journey and enters
   * `Printing`, and `Printing` advances the journey once both engines
   * report done. Every other phase does nothing more.
   */
  function Update(c: Config, s: Bot): (r: Bot)
    requires c.Valid()
    requires s.phase == Home ==> |s.plan.points| > 0
    requires s.phase == Printing && JourneysDone(s.x, s.y) ==> CursorOk(s.plan)
    ensures s.phase == Home ==>
      && r.phase == Printing && r.plan.paths == s.plan.paths
      && r.plan.pathsI == 0 && r.plan.pointsI == 0 && r.plan.startTransition
      && r.plan.target == s.plan.points[0]
      && var home := Point(c.croppedSize, c.croppedSize);
         if IsNoOp(c, home, s.plan.points[0]) then
           r.plan.current == home && r.x == Sleep(s.x) && r.y == Sleep(s.y)
         else r.plan.current == s.plan.points[0] && Armed(c, home, s.plan.points[0], r.x, r.y)
    ensures s.phase == Printing ==> r.phase == Printing || r.phase == ShootFace
    ensures s.phase == Printing && JourneysDone(s.x, s.y) ==>
      && CursorOk(r.plan) && r.plan.paths == s.plan.paths
      && (r.phase == ShootFace <==> Position(s.plan) == |Flatten(s.plan.paths)| - 1)
      && if r.phase == ShootFace then Position(r.plan) == Position(s.plan)
         else Position(r.plan) == Position(s.plan) + 1
    ensures s.phase == Printing && JourneysDone(s.x, s.y) ==>
      var q := Replanned(s).plan;
      if Fires(c, q) then r.plan.current == q.target && Armed(c, q.current, q.target, r.x, r.y)
      else r.plan.current == s.plan.current && r.x == Sleep(s.x) && r.y == Sleep(s.y)
    ensures (s.phase == Printing && !JourneysDone(s.x, s.y)) || (s.phase != Home && s.phase != Printing) ==>
      r.phase == s.phase && r.plan == s.plan && r.x == Sleep(s.x) && r.y == Sleep(s.y)
  {
    var s1 := s.(x := Sleep(s.x), y := Sleep(s.y));
    match s.phase
    case Home => JourneyOn(c, s1, true).(phase := Printing)
    case Printing =>
      if JourneysDone(s1.x, s1.y) then
        JourneyAdvances(c, s1);
        JourneyDispatches(c, s1);
        JourneyOn(c, s1, false)
      else s1
    case _ => s1
  }

  /**
   * One iteration of the pulse loop; `xElapsed`/`yElapsed` say whether each
   * axis's delay has passed since its last toggle. The planner and phase
   * are untouched and each axis evolves on its own.
   */
  function PulseStep(s: Bot, xElapsed: bool, yElapsed: bool): (r: Bot)
    ensures r.phase == s.phase && r.plan == s.plan
    ensures r.x == Pulse(s.x, xElapsed) && r.y == Pulse(s.y, yElapsed)
    ensures Valid(s) ==> Valid(r)
  {
    s.(x := Pulse(s.x, xElapsed), y := Pulse(s.y, yElapsed))
  }

  // ---------------------------------------------------------------------
  // Invariant and reachability over event sequences
  // ---------------------------------------------------------------------

  /**
   * `Valid`, plus: whoever puts the machine into `Home` has left the cursor
   * on the first polyline, because the restart re-reads the copied vertex
   * list without reloading it from the job.
   */
  predicate Inv(s: Bot) {
    Valid(s) && (s.phase == Home ==> s.plan.pathsI == 0)
  }

  /** The update tick keeps the state invariant. */
  lemma UpdateKeepsInv(c: Config, s: Bot)
    requires c.Valid() && Inv(s)
    ensures Inv(Update(c, s))
  {
    var s1 := s.(x := Sleep(s.x), y := Sleep(s.y));
    if s.phase == Home {
      RestartKeepsValid(c, s1);
    }
  }

  /** The restart keeps `Valid` when the cursor is on the first polyline. */
  lemma RestartKeepsValid(c: Config, s: Bot)
    requires c.Valid() && Valid(s) && s.plan.pathsI == 0
    ensures Valid(JourneyOn(c, s, true))
  {
    var p := s.plan.(pointCount := 1, startTransition := true,
                     current := Point(c.croppedSize, c.croppedSize),
                     target := s.plan.points[0], pathsI := 0, pointsI := 0);
    assert Valid(s.(plan := p));
  }

  /** What can happen to the controller between two observations. */
  datatype Event =
    | Tick                                    // the control tick runs `Update`
    | PulseLoop(xElapsed: bool, yElapsed: bool) // one iteration of the pulse loop
    | LinkReady                               // the hardware link finished initializing
    | HomeRequest                             // the operator asks the arm to home

  function Step(c: Config, s: Bot, e: Event): (r: Bot)
    requires c.Valid() && Inv(s)
    ensures Inv(r)
  {
    match e
    case Tick => UpdateKeepsInv(c, s); Update(c, s)
    case PulseLoop(ex, ey) => PulseStep(s, ex, ey)
    case LinkReady => SetupArduino(s)
    case HomeRequest => GoHome(s)
  }

  /**
   * Any sequence of events keeps the invariant. `Home` and `Done` are never
   * entered, the transient `ShootCoffee` is never observed, and `Printing`
   * or `ShootFace` are reached only from a run that started in `Home`,
   * `Printing` or `ShootFace`: no live transition leads into `Home`.
   */
  function Run(c: Config, s: Bot, es: seq<Event>): (r: Bot)
    requires c.Valid() && Inv(s)
    ensures Inv(r)
    ensures r.phase == Home ==> s.phase == Home
    ensures r.phase == Done ==> s.phase == Done
    ensures r.phase == ShootCoffee ==> s.phase == ShootCoffee
    ensures r.phase == Printing || r.phase == ShootFace ==>
      s.phase == Home || s.phase == Printing || s.phase == ShootFace
    decreases |es|
  {
    if |es| == 0 then s else Run(c, Step(c, s, es[0]), es[1..])
  }

  /** From power-up the planner is never reached by the live transitions. */
  lemma BootNeverPrints(c: Config, job: seq<seq<Point>>, es: seq<Event>)
    requires c.Valid() && JobOk(job)
    ensures var r := Run(c, Boot(job), es);
      r.phase in {Start, Idle, Homing} && r.plan == Boot(job).plan
  {
    BootRunStaysInert(c, Boot(job), es);
  }

  /** Outside `Home` and `Printing`, no event touches the planner. */
  lemma {:induction false} BootRunStaysInert(c: Config, s: Bot, es: seq<Event>)
    requires c.Valid() && Inv(s) && s.phase in {Start, Idle, Homing}
    ensures Run(c, s, es).phase in {Start, Idle, Homing} && Run(c, s, es).plan == s.plan
    decreases |es|
  {
    if |es| > 0 {
      BootRunStaysInert(c, Step(c, s, es[0]), es[1..]);
    }
  }

  /** `n` iterations of the pulse loop in which both delays have elapsed. */
  function PulseLoops(n: nat): (es: seq<Event>)
    ensures |es| == n && forall i :: 0 <= i < n ==> es[i] == PulseLoop(true, true)
  {
    seq(n, _ => PulseLoop(true, true))
  }

  /**
   * Running the pulse loop `n` times and then the control tick is the tick
   * applied to both engines advanced by `n` iterations.
   */
  lemma {:induction false} RunPulsesThenTick(c: Config, s: Bot, n: nat)
    requires c.Valid() && Inv(s)
    ensures Inv(s.(x := PulseRun(s.x, n), y := PulseRun(s.y, n)))
    ensures Run(c, s, PulseLoops(n) + [Tick]) == Update(c, s.(x := PulseRun(s.x, n), y := PulseRun(s.y, n)))
    decreases n
  {
    var es := PulseLoops(n) + [Tick];
    if n == 0 {
      assert es == [Tick];
      assert es[1..] == [];
    } else {
      assert es[0] == PulseLoop(true, true);
      assert es[1..] == PulseLoops(n - 1) + [Tick];
      var s' := PulseStep(s, true, true);
      RunPulsesThenTick(c, s', n - 1);
    }
  }
}

=== FILE: scenarios.dfy ===
/**
 * Concrete jobs run through the controller, as sequences of control ticks
 * and pulse-loop iterations. The configuration makes a move of `d`
 * normalized units exactly `8 * d` steps on each axis (negated on X).
 *
 * Each scenario lists the state after every tick (`...At(k)`), proves each
 * tick on its own (`...Tick`), and chains them over `Run`.
 */
module Scenarios {
  import opened Geometry
  import opened AxisRuns
  import opened Dispatch
  import opened Journey
  import opened Machine

  /** Crop size 1, 1/160 steps per mm, tolerance 1 step, 100 us minimum delay. */
  function Cfg(): (c: Config)
    ensures c.Valid()
  {
    Config(1.0, 1.0 / 160.0, 1.0 / 160.0, 1, 100)
  }

  /** A job that has just been homed: cursor at the start, engines idle. */
  function AtHome(job: seq<seq<Point>>): (s: Bot)
    requires JobOk(job)
    ensures Inv(s) && s.phase == Home
  {
    Boot(job).(phase := Home)
  }

  lemma StepsUnderCfg(c: Config, a: real, b: real)
    requires c.croppedSize == 1.0 && c.scaleX == 1.0 / 160.0 && c.scaleY == 1.0 / 160.0
    requires c.tol > 0 && c.delayMin > 0
    ensures GetSteps(c, a, b, X) == -Trunc((b - a) * 8.0)
    ensures GetSteps(c, a, b, Y) == Trunc((b - a) * 8.0)
  {
    assert (b / 1.0 - a / 1.0) * WorkAreaMm * (1.0 / 160.0) * Microsteps == (b - a) * 8.0;
  }

  /** An armed axis with the configuration's 100 us delay and its step line low. */
  function Engaged(steps: nat, inc: nat, dir: Level, awake: bool): AxisRun {
    AxisRun(steps, inc, 100, Low, dir, awake)
  }

  /** A freshly armed engine given at least its whole budget of iterations ends drained. */
  lemma Drained(a: AxisRun, n: nat)
    requires WithinBudget(a) && a.inc == 0 && n >= 2 * a.steps
    ensures PulseRun(a, n) == a.(inc := 2 * a.steps)
  {
  }

  /** An even number of iterations within the budget leaves the step line where it was. */
  lemma PartlyPulsed(a: AxisRun, n: nat)
    requires WithinBudget(a) && a.inc == 0 && n <= 2 * a.steps && n % 2 == 0
    ensures PulseRun(a, n) == a.(inc := n)
  {
  }

  lemma RunTick(c: Config, s: Bot)
    requires c.Valid() && Inv(s)
    ensures Run(c, s, [Tick]) == Update(c, s)
  {
    assert [Tick][1..] == [];
  }

  // ---------------------------------------------------------------------
  // A three-point stroke
  // ---------------------------------------------------------------------

  function StrokeJob(): seq<seq<Point>> {
    [[Point(0.0, 0.0), Point(0.5, 0.0), Point(1.0, 0.0)]]
  }

  function StrokePlan(pointsI: nat, at: Point, startTransition: bool, pointCount: int): Planner {
    Planner(StrokeJob(), StrokeJob()[0], 0, pointsI, at, at, startTransition, false, false, pointCount)
  }

  /** The state after tick `k` of the stroke job, started from `Home`. */
  function StrokeAt(k: nat): Bot {
    match k
    case 0 => AtHome(StrokeJob())
    case 1 => Bot(Printing, StrokePlan(0, Point(0.0, 0.0), true, 1),
                  Engaged(8, 0, Low, true), Engaged(8, 0, High, true))
    case 2 => Bot(Printing, StrokePlan(1, Point(0.5, 0.0), false, 1),
                  Engaged(4, 0, High, true), Engaged(0, 0, High, true))
    case 3 => Bot(Printing, StrokePlan(2, Point(1.0, 0.0), false, 1),
                  Engaged(4, 0, High, true), Engaged(0, 0, High, true))
    case _ => Bot(ShootFace, StrokePlan(2, Point(1.0, 0.0), false, 2),
                  Engaged(4, 8, High, false), Engaged(0, 0, High, false))
  }

  /** Home: travel from the canonical start point (1, 1) to the first vertex. */
  lemma StrokeHomeTick(c: Config, s: Bot)
    requires c == Cfg() && s == StrokeAt(0)
    ensures Inv(s) && Update(c, s) == StrokeAt(1)
  {
    StepsUnderCfg(c, 1.0, 0.0);
  }

  /** The travel move is drained; the stroke starts (flagged) toward the middle vertex. */
  lemma StrokeStartTick(c: Config, s: Bot)
    requires c == Cfg() && s == StrokeAt(1).(x := Engaged(8, 16, Low, true), y := Engaged(8, 16, High, true))
    ensures Inv(s) && Update(c, s) == StrokeAt(2)
  {
    StepsUnderCfg(c, 0.0, 0.5);
    StepsUnderCfg(c, 0.0, 0.0);
  }

  /** The first segment is drained; the last segment is drawn (flagged as stroke end). */
  lemma StrokeEndTick(c: Config, s: Bot)
    requires c == Cfg() && s == StrokeAt(2).(x := Engaged(4, 8, High, true))
    ensures Inv(s) && Update(c, s) == StrokeAt(3)
  {
    StepsUnderCfg(c, 0.5, 1.0);
    StepsUnderCfg(c, 0.0, 0.0);
  }

  /** The last segment is drained; the job ends and nothing is dispatched. */
  lemma StrokeLastTick(c: Config, s: Bot)
    requires c == Cfg() && s == StrokeAt(3).(x := Engaged(4, 8, High, true))
    ensures Inv(s) && Update(c, s) == StrokeAt(4)
  {
  }

  /**
   * The travel move cut short: after 8 of its 16 edges each counter has
   * reached its budget, so the tick treats the move as done and re-arms
   * the engines for the stroke.
   */
  lemma StrokeHalfTick(c: Config, s: Bot)
    requires c == Cfg() && s == StrokeAt(1).(x := Engaged(8, 8, Low, true), y := Engaged(8, 8, High, true))
    ensures Inv(s) && Update(c, s) == StrokeAt(2)
  {
    StepsUnderCfg(c, 0.0, 0.5);
    StepsUnderCfg(c, 0.0, 0.0);
  }

  lemma StrokeStep1(c: Config, s: Bot)
    requires c == Cfg() && s == StrokeAt(0)
    ensures Inv(s) && Run(c, s, [Tick]) == StrokeAt(1)
  {
    StrokeHomeTick(c, s);
    RunTick(c, s);
  }

  lemma StrokeStep2(c: Config, s: Bot, n: nat)
    requires c == Cfg() && s == StrokeAt(1) && n >= 16
    ensures Inv(s) && Run(c, s, PulseLoops(n) + [Tick]) == StrokeAt(2)
  {
    Drained(s.x, n);
    Drained(s.y, n);
    StrokeStartTick(c, s.(x := PulseRun(s.x, n), y := PulseRun(s.y, n)));
    RunPulsesThenTick(c, s, n);
  }

  lemma StrokeStep3(c: Config, s: Bot, n: nat)
    requires c == Cfg() && s == StrokeAt(2) && n >= 8
    ensures Inv(s) && Run(c, s, PulseLoops(n) + [Tick]) == StrokeAt(3)
  {
    Drained(s.x, n);
    Drained(s.y, n);
    StrokeEndTick(c, s.(x := PulseRun(s.x, n), y := PulseRun(s.y, n)));
    RunPulsesThenTick(c, s, n);
  }

  lemma StrokeStep4(c: Config, s: Bot, n: nat)
    requires c == Cfg() && s == StrokeAt(3) && n >= 8
    ensures Inv(s) && Run(c, s, PulseLoops(n) + [Tick]) == StrokeAt(4)
  {
    Drained(s.x, n);
    Drained(s.y, n);
    StrokeLastTick(c, s.(x := PulseRun(s.x, n), y := PulseRun(s.y, n)));
    RunPulsesThenTick(c, s, n);
  }

  /**
   * Half the travel move is lost: the tick that follows only `steps`
   * pulse-loop iterations leaves 8 of the move's 16 edges unemitted and
   * still starts the stroke with fresh counters.
   */
  lemma TravelCutShort(c: Config, s: Bot)
    requires c == Cfg() && s == StrokeAt(1)
    ensures !Finished(PulseRun(s.x, s.x.steps)) && 2 * s.x.steps - PulseRun(s.x, s.x.steps).inc == 8
    ensures Inv(s) && Run(c, s, PulseLoops(s.x.steps) + [Tick]) == StrokeAt(2)
  {
    assert s.x.steps == 8;
    PartlyPulsed(s.x, 8);
    PartlyPulsed(s.y, 8);
    StrokeHalfTick(c, s.(x := PulseRun(s.x, 8), y := PulseRun(s.y, 8)));
    RunPulsesThenTick(c, s, 8);
  }

  lemma StrokeStates()
    ensures StrokeAt(1).phase == Printing && StrokeAt(1).plan.current == Point(0.0, 0.0)
    ensures StrokeAt(1).x.steps == 8 && StrokeAt(1).y.steps == 8
    ensures StrokeAt(2).phase == Printing && StrokeAt(2).plan.current == Point(0.5, 0.0)
    ensures StrokeAt(2).plan.pointsI == 1 && StrokeAt(2).x == Engaged(4, 0, High, true) && StrokeAt(2).y.steps == 0
    ensures StrokeAt(3).phase == Printing && StrokeAt(3).plan.current == Point(1.0, 0.0)
    ensures StrokeAt(3).plan.pointsI == 2 && StrokeAt(3).x == Engaged(4, 0, High, true)
    ensures StrokeAt(4).phase == ShootFace && StrokeAt(4).plan.current == Point(1.0, 0.0)
    ensures StrokeAt(4).x == Engaged(4, 8, High, false)
  {
  }

  /**
   * A three-point stroke: after the travel move to its first point the
   * stroke takes exactly two dispatched moves, the first marked as a stroke
   * start and the second as a stroke end, ending at its last point; once
   * the pulse loop has drained them the next tick ends the job without a
   * further dispatch.
   */
  lemma ThreePointStroke(c: Config, a: Point, b: Point, d: Point, n1: nat, n2: nat, n3: nat)
    requires c == Cfg() && a == Point(0.0, 0.0) && b == Point(0.5, 0.0) && d == Point(1.0, 0.0)
    requires n1 >= 16 && n2 >= 8 && n3 >= 8
    ensures
      var s1 := Run(c, AtHome([[a, b, d]]), [Tick]);
      var s3 := Run(c, s1, PulseLoops(n1) + [Tick]);
      var s5 := Run(c, s3, PulseLoops(n2) + [Tick]);
      var s7 := Run(c, s5, PulseLoops(n3) + [Tick]);
      && s1.phase == Printing && s1.plan.current == a && s1.x.steps == 8 && s1.y.steps == 8
      && s3.phase == Printing && s3.plan.current == b && s3.plan.pointsI == 1
      && s3.x.steps == 4 && s3.x.inc == 0 && s3.y.steps == 0
      && s5.phase == Printing && s5.plan.current == d && s5.plan.pointsI == 2
      && s5.x.steps == 4 && s5.x.inc == 0
      && s7.phase == ShootFace && s7.plan.current == d && s7.x.steps == 4 && s7.x.inc == 8
  {
    var s0 := AtHome([[a, b, d]]);
    StrokeStates();
    StrokeStep1(c, s0);
    var s1 := Run(c, s0, [Tick]);
    StrokeStep2(c, s1, n1);
    var s3 := Run(c, s1, PulseLoops(n1) + [Tick]);
    StrokeStep3(c, s3, n2);
    var s5 := Run(c, s3, PulseLoops(n2) + [Tick]);
    StrokeStep4(c, s5, n3);
  }

  // ---------------------------------------------------------------------
  // A job of one single-point polyline
  // ---------------------------------------------------------------------

  function Dot(): Point {
    Point(0.0, 0.0)
  }

  function DotAt(k: nat): Bot {
    match k
    case 0 => AtHome([[Dot()]])
    case 1 => Bot(Printing, Planner([[Dot()]], [Dot()], 0, 0, Dot(), Dot(), true, false, false, 1),
                  Engaged(8, 0, Low, true), Engaged(8, 0, High, true))
    case _ => Bot(ShootFace, Planner([[Dot()]], [Dot()], 0, 0, Dot(), Dot(), false, false, false, 1),
                  Engaged(8, 16, Low, false), Engaged(8, 16, High, false))
  }

  lemma DotHomeTick(c: Config, s: Bot)
    requires c == Cfg() && s == DotAt(0)
    ensures Inv(s) && Update(c, s) == DotAt(1)
  {
    StepsUnderCfg(c, 1.0, 0.0);
  }

  /** The pending transition is consumed, but the move has no steps: nothing is dispatched. */
  lemma DotLastTick(c: Config, s: Bot)
    requires c == Cfg() && s == DotAt(1).(x := Engaged(8, 16, Low, true), y := Engaged(8, 16, High, true))
    ensures Inv(s) && Update(c, s) == DotAt(2)
  {
    StepsUnderCfg(c, 0.0, 0.0);
  }

  lemma DotStep1(c: Config, s: Bot)
    requires c == Cfg() && s == DotAt(0)
    ensures Inv(s) && Run(c, s, [Tick]) == DotAt(1)
  {
    DotHomeTick(c, s);
    RunTick(c, s);
  }

  lemma DotStep2(c: Config, s: Bot, n: nat)
    requires c == Cfg() && s == DotAt(1) && n >= 16
    ensures Inv(s) && Run(c, s, PulseLoops(n) + [Tick]) == DotAt(2)
  {
    Drained(s.x, n);
    Drained(s.y, n);
    DotLastTick(c, s.(x := PulseRun(s.x, n), y := PulseRun(s.y, n)));
    RunPulsesThenTick(c, s, n);
  }

  /**
   * A job made of one single-point polyline: after the travel move to that
   * point, the next tick ends the job and dispatches nothing more.
   */
  lemma SinglePointJob(c: Config, a: Point, n: nat)
    requires c == Cfg() && a == Point(0.0, 0.0) && n >= 16
    ensures
      var s1 := Run(c, AtHome([[a]]), [Tick]);
      var s3 := Run(c, s1, PulseLoops(n) + [Tick]);
      && s1.plan.current == a && s1.x.steps == 8 && s1.y.steps == 8
      && s3.phase == ShootFace && s3.plan.current == a && !s3.plan.startTransition
      && s3.x.inc == 16 && s3.y.inc == 16
  {
    var s0 := AtHome([[a]]);
    DotStep1(c, s0);
    DotStep2(c, Run(c, s0, [Tick]), n);
  }

  // ---------------------------------------------------------------------
  // Tolerance coalescing on a diagonal stroke
  // ---------------------------------------------------------------------

  function Diagonal(): seq<seq<Point>> {
    [[Point(0.0, 0.0), Point(0.25, 0.25), Point(0.5, 0.5), Point(0.75, 0.75), Point(1.0, 1.0)]]
  }

  /** The base configuration with a tolerance of 2 steps. */
  function DiagonalCfg(): (c: Config)
    ensures c.Valid()
  {
    Cfg().(tol := 2)
  }

  function DiagonalPlan(pointsI: nat, current: Point, target: Point, pointCount: int): Planner {
    Planner(Diagonal(), Diagonal()[0], 0, pointsI, current, target, false, false, false, pointCount)
  }

  function DiagonalAt(k: nat): Bot {
    match k
    case 0 => AtHome(Diagonal()).(phase := Printing)
    case 1 => Bot(Printing, DiagonalPlan(1, Point(0.25, 0.25), Point(0.25, 0.25), 1),
                  Engaged(2, 0, High, true), Engaged(2, 0, Low, true))
    case 2 => Bot(Printing, DiagonalPlan(2, Point(0.25, 0.25), Point(0.5, 0.5), 2),
                  Engaged(2, 4, High, false), Engaged(2, 4, Low, false))
    case _ => Bot(Printing, DiagonalPlan(3, Point(0.75, 0.75), Point(0.75, 0.75), 1),
                  Engaged(4, 0, High, true), Engaged(4, 0, Low, true))
  }

  lemma DiagonalStartTick(c: Config, s: Bot)
    requires c == DiagonalCfg() && s == DiagonalAt(0)
    ensures Inv(s) && Update(c, s) == DiagonalAt(1)
  {
    StepsUnderCfg(c, 0.0, 0.25);
  }

  /** A 2-step move on both axes is not above a tolerance of 2: it is held back. */
  lemma DiagonalHoldTick(c: Config, s: Bot)
    requires c == DiagonalCfg() && s == DiagonalAt(1).(x := Engaged(2, 4, High, true), y := Engaged(2, 4, Low, true))
    ensures Inv(s) && Update(c, s) == DiagonalAt(2)
  {
    StepsUnderCfg(c, 0.25, 0.5);
  }

  /** The accumulated 4-step move is above the tolerance on both axes: it is dispatched. */
  lemma DiagonalFireTick(c: Config, s: Bot)
    requires c == DiagonalCfg() && s == DiagonalAt(2)
    ensures Inv(s) && Update(c, s) == DiagonalAt(3)
  {
    StepsUnderCfg(c, 0.25, 0.75);
    assert Trunc((0.75 - 0.25) * 8.0) == 4;
  }

  lemma DiagonalStep1(c: Config, s: Bot)
    requires c == DiagonalCfg() && s == DiagonalAt(0)
    ensures Inv(s) && Run(c, s, [Tick]) == DiagonalAt(1)
  {
    DiagonalStartTick(c, s);
    RunTick(c, s);
  }

  lemma DiagonalStep2(c: Config, s: Bot, n: nat)
    requires c == DiagonalCfg() && s == DiagonalAt(1) && n >= 4
    ensures Inv(s) && Run(c, s, PulseLoops(n) + [Tick]) == DiagonalAt(2)
  {
    Drained(s.x, n);
    Drained(s.y, n);
    DiagonalHoldTick(c, s.(x := PulseRun(s.x, n), y := PulseRun(s.y, n)));
    RunPulsesThenTick(c, s, n);
  }

  lemma DiagonalStep3(c: Config, s: Bot)
    requires c == DiagonalCfg() && s == DiagonalAt(2)
    ensures Inv(s) && Run(c, s, [Tick]) == DiagonalAt(3)
  {
    DiagonalFireTick(c, s);
    RunTick(c, s);
  }

  lemma DiagonalStates()
    ensures DiagonalAt(1).plan.current == Point(0.25, 0.25) && DiagonalAt(1).x.steps == 2 && DiagonalAt(1).y.steps == 2
    ensures DiagonalAt(2).plan.target == Point(0.5, 0.5) && DiagonalAt(2).plan.current == Point(0.25, 0.25)
    ensures DiagonalAt(2).plan.pointCount == 2
    ensures DiagonalAt(2).x == Engaged(2, 4, High, false) && DiagonalAt(2).y == Engaged(2, 4, Low, false)
    ensures DiagonalAt(3).plan.target == Point(0.75, 0.75) && DiagonalAt(3).plan.current == Point(0.75, 0.75)
    ensures DiagonalAt(3).x == Engaged(4, 0, High, true) && DiagonalAt(3).y == Engaged(4, 0, Low, true)
  {
  }

  /**
   * Tolerance coalescing on a diagonal stroke with 2-step spacing and a
   * tolerance of 2: after the flagged stroke start, the short middle move
   * is held back (nothing dispatched, `current` kept) and the next point,
   * 4 steps away on both axes, is dispatched.
   */
  lemma ShortMovesCoalesce(c: Config, n: nat)
    requires c == DiagonalCfg() && n >= 4
    ensures
      var p1, p2, p3 := Point(0.25, 0.25), Point(0.5, 0.5), Point(0.75, 0.75);
      var s1 := Run(c, AtHome(Diagonal()).(phase := Printing), [Tick]);
      var s3 := Run(c, s1, PulseLoops(n) + [Tick]);
      var s4 := Run(c, s3, [Tick]);
      && s1.plan.current == p1 && s1.x.steps == 2 && s1.y.steps == 2
      && s3.plan.target == p2 && s3.plan.current == p1 && s3.plan.pointCount == 2
      && s3.x.steps == 2 && s3.x.inc == 4 && s3.y.inc == 4
      && s4.plan.target == p3 && s4.plan.current == p3 && s4.x.steps == 4 && s4.y.steps == 4
      && s4.x.inc == 0 && s4.y.inc == 0
  {
    var s0 := AtHome(Diagonal()).(phase := Printing);
    DiagonalStates();
    DiagonalStep1(c, s0);
    var s1 := Run(c, s0, [Tick]);
    DiagonalStep2(c, s1, n);
    DiagonalStep3(c, Run(c, s1, PulseLoops(n) + [Tick]));
  }

  // ---------------------------------------------------------------------
  // Restart with a stale vertex list
  // ---------------------------------------------------------------------

  /**
   * Restarting from `Home` with the cursor on a later polyline targets that
   * polyline's first point while the cursor says polyline 0: the copied
   * vertex list is not reloaded and the cursor invariant is lost.
   */
  lemma StaleRestart()
    ensures
      var a, b := Point(0.0, 0.0), Point(0.5, 0.5);
      var s := Boot([[a], [b]]);
      var h := s.(phase := Home, plan := s.plan.(pathsI := 1, points := [b]));
      var r := Update(Cfg(), h);
      Valid(h) && r.plan.pathsI == 0 && r.plan.target == b && !CursorOk(r.plan)
  {
  }
}
